=== FILE: README.md ===
# HyperCat catalogue model

A Dafny model of the core of the `hypercat` Go package, a HyperCat 2.0
(BSI PAS 212) catalogue library. A catalogue (`HyperCat`) holds three things:

- an ordered list of items, whose hrefs must stay unique;
- an ordered metadata list of `(rel, val)` pairs, in which a key may repeat;
- a description.

On the wire, the description travels as an ordinary metadata entry under the
key `urn:X-hypercat:rels:hasDescription:en` (`DescriptionRel`). In memory it
is a field of its own.

Modules:

- `Model` (`model.dfy`): the datatypes `Rel`, `Item`, `HyperCat`, `Error`,
  `Option` and `Result`, the `DescriptionRel` constant, and the href
  predicates.
- `Metadata` (`metadata.dfy`): the relation list as pure functions
  (`ReplaceAll`, `Keys`, `ValuesFor`) and the lemmas that relate them.
- `Catalogue` (`catalogue.dfy`): `NewHyperCat`, `AddRel`, `ReplaceRel`,
  `Rels`, `Vals`, `AddItem` and `ReplaceItem`. `Rels` and `Vals` are methods
  that follow the loops of the Go methods `HyperCat.Rels` and
  `HyperCat.Vals` and are proved equal to the list functions.
- `Codec` (`codec.dfy`): encoding (`Marshal`) and decoding (`Unmarshal`, plus
  the loop method `UnmarshalInto`, and `Parse`), with the round-trip lemmas.
  It also holds the corrected decoder described under Findings.
- `Scenarios` (`scenarios.dfy`): a catalogue built, encoded and parsed back.

The JSON layer is a parameter. A wire document is what that layer decodes
into: `TempCat(items, metadata)`. `None` stands for text the layer rejects.
The Go methods that mutate the receiver are modelled as functions that return
the new catalogue. Errors are `Result` values.

Three behaviours of the code are easy to miss:

- Decoding into an existing catalogue is not all-or-nothing. `UnmarshalJSON`
  appends the decoded metadata to the receiver's metadata. It keeps the
  receiver's description when the input has no description entry. It checks
  for a missing description only after updating the receiver, so the receiver
  is changed even when the error is returned. `Codec.Unmarshal` states all of
  this. `Parse` decodes into an empty catalogue and returns no catalogue on
  error, so it is all-or-nothing.
- Decoded items are discarded (see Findings). The round trip therefore
  restores metadata and description but not items.
- `AddRel` accepts `DescriptionRel` as a key. Such an entry does not survive
  encoding then parsing. When the catalogue has a description, the encoded
  description comes later and wins, and the added entry is dropped. When the
  description is empty, the added value becomes the parsed description
  (`Scenarios.AddedDescriptionRel`). Every other `AddRel`, and every
  `ReplaceRel`, keeps the metadata free of description entries. So
  `Codec.RoundTrip` covers every catalogue built from `NewHyperCat` with a
  non-empty description through those calls
  (`Scenarios.RoundTripAfterAddRel`, `Scenarios.RoundTripAfterReplaceRel`).

## Model

| member | source | states |
|---|---|---|
| Catalogue.NewHyperCat | hypercat.go:60-65 | a new catalogue has no items, no metadata, and exactly the given description; the description is not validated |
| Catalogue.AddRel | hypercat.go:87-89 | the metadata grows by one entry, which is `(rel, val)` at the end; every earlier entry, the items and the description are untouched |
| Metadata.AppendValues | hypercat.go:87-89 | after an append, the values listed for that key gain `val` at the end, so a duplicate key is kept; the values of every other key are unchanged |
| Catalogue.ReplaceRel | hypercat.go:96-102 | the length is kept; every entry with key `rel` becomes `(rel, val)`; every other entry, the items and the description are unchanged |
| Metadata.ReplaceAll | hypercat.go:97-101 | the scan over the list overwrites every matching entry (not just the first) and keeps all the others in place |
| Metadata.ReplaceAllIdempotent | hypercat.go:96-102 | replacing twice with the same pair gives the same list as replacing once |
| Metadata.ReplaceAllNoMatch | hypercat.go:91-102 | when no entry has the key, replacing leaves the list unchanged |
| Metadata.ReplaceAllKeys | hypercat.go:96-102 | replacing never changes the keys of the list or their order |
| Metadata.ReplaceAllValues | hypercat.go:96-102 | after replacing, the key has as many values as before and all of them equal `val` |
| Metadata.ReplaceAllOtherValues | hypercat.go:96-102 | replacing one key leaves the values of every other key unchanged |
| Catalogue.Rels | hypercat.go:194-202 | the result has one key per metadata entry, in list order, duplicates included |
| Metadata.Keys | hypercat.go:194-202 | the keys of a list match its entries position by position |
| Catalogue.Vals | hypercat.go:207-217 | the forward loop of `HyperCat.Vals` yields exactly the values of the entries with the given key, in list order |
| Metadata.ValuesFor | hypercat.go:207-217 | the values for a key come only from entries with that key, are no more than the entries, and are empty exactly when no entry has the key |
| Metadata.ValuesForConcat | hypercat.go:207-217 | looking up values distributes over concatenation, so the result is the matching entries' values in list order |
| Catalogue.AddRelKeepsNoDescription | hypercat.go:87-89 | on metadata without description entries, `AddRel` keeps it so exactly when the added key is not `DescriptionRel` |
| Catalogue.ReplaceRelKeepsNoDescription | hypercat.go:96-102 | `ReplaceRel` never introduces a description entry into metadata that has none |
| Catalogue.DuplicateRelsThenReplace | hypercat.go:87-102 | on a fresh catalogue, `AddRel(k,v1); AddRel(k,v2)` gives values `[v1, v2]` for `k`, and a following `ReplaceRel(k,v3)` gives `[v3, v3]` |
| Catalogue.HrefIndex | hypercat.go:126-127 | the index found is the first item with the href; none is found exactly when no item has it |
| Catalogue.AddItem | hypercat.go:108-119 | fails with a duplicate-href error exactly when some item already has the href, and then the catalogue is not changed; otherwise the item is appended and nothing else changes |
| Catalogue.AddItemKeepsUnique | hypercat.go:108-119 | if the hrefs were pairwise distinct before, a successful add keeps them distinct |
| Catalogue.ReplaceItem | hypercat.go:125-135 | fails with a not-found error exactly when no item has the href; otherwise only the first item with that href is replaced, in place, and the metadata and description are unchanged |
| Catalogue.ReplaceItemKeepsHrefs | hypercat.go:125-135 | a successful replace keeps the whole href sequence, so unique hrefs stay unique |
| Catalogue.SameHrefTwice | hypercat.go:108-135 | adding the same href twice fails the second time and leaves one item; replacing an absent href fails |
| Codec.Marshal | hypercat.go:141-155 | items pass through; a non-empty description is appended as a trailing `DescriptionRel` entry; an empty description adds nothing |
| Codec.Strip | hypercat.go:175-181 | the kept entries all come from the input and none is a description entry; a list without description entries is kept whole |
| Codec.StripConcat | hypercat.go:175-181 | the filtering distributes over concatenation, so the kept entries stay in their original order |
| Codec.LastDescriptionIndex | hypercat.go:175-178 | the index found is a description entry with no description entry after it, so the last one wins; none is found exactly when there is no description entry |
| Codec.DescriptionAfterSnoc | hypercat.go:175-178 | one more entry at the end overwrites the description when it is a description entry and leaves it alone otherwise |
| Codec.ScanStep | hypercat.go:175-181 | scanning one more entry either appends it to the kept entries or, for a description entry, makes its value the description |
| Codec.Unmarshal | hypercat.go:161-189 | rejected JSON leaves the catalogue unchanged with a malformed-input error; otherwise the non-description entries are appended in order, the last description entry wins, the old description stays when there is none, the items stay unchanged, and the error is a missing-description error exactly when the final description is empty |
| Codec.UnmarshalInto | hypercat.go:167-188 | the entry-by-entry loop of `UnmarshalJSON` computes exactly what `Unmarshal` describes |
| Codec.Parse | hypercat.go:71-80 | rejected JSON yields a malformed-input error; otherwise parsing succeeds exactly when the value of the last description entry is non-empty and fails with a missing-description error when it is not (including when there is no description entry); a success has no items, the document's non-description entries in order, and that last description value |
| Codec.EmptyLastDescriptionFails | hypercat.go:175-186 | a document whose last description entry is empty fails to parse, even when an earlier description entry is non-empty |
| Codec.RoundTrip | hypercat.go:141-186 | for a non-empty description and metadata without a description entry, parsing the encoding gives back the same metadata and description, and no items |
| Codec.ParseThenMarshal | hypercat.go:141-186 | an item-less document whose only description entry is the last one parses, and encoding the result reproduces the document exactly |
| Codec.EmptyDescriptionNotParsed | hypercat.go:141-186 | a catalogue with an empty description encodes to a document that fails to parse with a missing-description error |
| Codec.ParseDropsItems | hypercat.go:161-181 | as written, a catalogue with items does not survive encoding then parsing |
| Codec.UnmarshalWithItems | hypercat.go:161-189 | the corrected decoder agrees with `Unmarshal` on metadata, description and error, and also takes the items from the document |
| Codec.ParseWithItems | hypercat.go:71-80 | parsing with the corrected decoder fails exactly when `Parse` fails, and on success returns the document's items |
| Codec.RoundTripWithItems | hypercat.go:141-189 | with the corrected decoder, parsing the encoding gives back the whole catalogue, items included |
| Scenarios.AddedDescriptionRel | hypercat.go:87-189 | an added `DescriptionRel` entry is dropped on parsing when the catalogue has a description, and becomes the parsed description when it has none |
| Scenarios.RoundTripAfterAddRel | hypercat.go:87-189 | adding a non-description relation to a round-trippable catalogue keeps it round-trippable, and the new entry comes back last |
| Scenarios.RoundTripAfterReplaceRel | hypercat.go:96-189 | replacing a relation in a round-trippable catalogue keeps it round-trippable, with the replaced values |
| Scenarios.EncodeThenParse | hypercat.go:60-189 | a catalogue described "Catalog Name", with one search relation and an item `/resource1`, parses back to the same description and relation with no description entry among its relations; the corrected decoder also restores the item |

## Findings

| source | as written | input that shows it | evidently intended | confidence | as-written member | corrected member |
|---|---|---|---|---|---|---|
| hypercat.go:167-181 | `UnmarshalJSON` decodes the items into the temporary `t.Items`, but copies only `t.Metadata` into the catalogue, so a parsed catalogue never has items | a catalogue described "Catalog Name" with one item `/resource1`, encoded and parsed back: the parsed catalogue has no items | assign `h.Items = t.Items` so that items survive a round trip | high; not executed | Codec.ParseDropsItems | Codec.RoundTripWithItems |

## Left out

- JSON text is not modelled. This covers `encoding/json`, struct tags, field names, and `null` versus `[]` for empty lists. A document is the pair of lists the JSON layer yields, and `None` marks text it rejects.
- Item fields and the item codec are not modelled, because they are in a file that is not part of this model. An item is an href plus an opaque body. The mandatory description of each item is therefore not checked here. `Marshal` and `Parse` pass each item through unchanged, as if the item codec always returned it as it was. So `Codec.RoundTrip`, `Codec.ParseDropsItems`, `Codec.RoundTripWithItems` and `Scenarios.EncodeThenParse` also cover items that codec might reject, such as an item with an empty description.
- Codec.UnmarshalWithItems: like the one-line fix it models, the corrected decoder takes the document's items as they are and does not check that their hrefs are unique.
- Byte-level strings are not modelled. A Go `string` can hold any bytes, but here every key, value, description and href is a Dafny `string`, which is Unicode text. `encoding/json` replaces invalid UTF-8 bytes with U+FFFD when it encodes. So in the Go program, the round-trip lemmas (`Codec.RoundTrip`, `Codec.ParseThenMarshal`, `Codec.RoundTripWithItems`, `Scenarios.RoundTripAfterAddRel`, `Scenarios.RoundTripAfterReplaceRel`, `Scenarios.EncodeThenParse`) hold only when all those strings are valid UTF-8. The model also assumes the JSON layer decodes exactly what it encoded.
- Error message strings are not modelled. Each error is a variant of `Error`.
- The version, media-type, relation and search-value constants (hypercat.go:10-43) are not modelled, apart from `DescriptionRel`. They have no behaviour. Two of them, `SimpleSearchVal` and `LexicographicSearchVal`, contain a soft hyphen (U+00AD) where the other values have `-`.
- Slice aliasing from `append` in `MarshalJSON`, and in-place mutation through pointers, are not modelled. Operations return new values instead.
- Concurrency is not modelled, because the library has none.

=== FILE: catalogue.dfy ===
/**
 The operations of the `HyperCat` catalogue: construction, relation
 mutation and queries, and item mutation that keeps hrefs unique.
 */
module Catalogue {
  import opened Model
  import opened Metadata

  /** A catalogue with no items, no metadata and the given description. */
  function NewHyperCat(description: string): (h: HyperCat)
    ensures h.items == [] && h.metadata == []
    ensures h.description == description
  {
    HyperCat([], [], description)
  }

  /** Appends `(rel, val)` to the metadata, duplicates allowed. */
  function AddRel(h: HyperCat, rel: string, val: string): (r: HyperCat)
    ensures r.items == h.items && r.description == h.description
    ensures |r.metadata| == |h.metadata| + 1
    ensures r.metadata[..|h.metadata|] == h.metadata
    ensures r.metadata[|h.metadata|] == Rel(rel, val)
  {
    h.(metadata := h.metadata + [Rel(rel, val)])
  }

  /** Overwrites the value of every metadata entry whose key is `rel`. */
  function ReplaceRel(h: HyperCat, rel: string, val: string): (r: HyperCat)
    ensures r.items == h.items && r.description == h.description
    ensures |r.metadata| == |h.metadata|
    ensures forall i :: 0 <= i < |h.metadata| ==>
              r.metadata[i] == (if h.metadata[i].rel == rel then Rel(rel, val) else h.metadata[i])
  {
    h.(metadata := ReplaceAll(h.metadata, rel, val))
  }

  /** The keys of the metadata, in order, computed by the loop of
      `HyperCat.Rels`. */
  method Rels(h: HyperCat) returns (rels: seq<string>)
    ensures |rels| == |h.metadata|
    ensures forall i :: 0 <= i < |h.metadata| ==> rels[i] == h.metadata[i].rel
    ensures rels == Keys(h.metadata)
  {
    rels := [];
    var i := 0;
    while i < |h.metadata|
      invariant 0 <= i <= |h.metadata|
      invariant |rels| == i
      invariant forall j :: 0 <= j < i ==> rels[j] == h.metadata[j].rel
    {
      rels := rels + [h.metadata[i].rel];
      i := i + 1;
    }
  }

  /** The values of the entries with key `key`, in order, computed by the
      loop of `HyperCat.Vals`; they are the list's `ValuesFor`. */
  method Vals(h: HyperCat, key: string) returns (vals: seq<string>)
    ensures vals == ValuesFor(h.metadata, key)
  {
    vals := [];
    var i := 0;
    while i < |h.metadata|
      invariant 0 <= i <= |h.metadata|
      invariant vals == ValuesFor(h.metadata[..i], key)
    {
      assert h.metadata[..i + 1] == h.metadata[..i] + [h.metadata[i]];
      ValuesForConcat(h.metadata[..i], [h.metadata[i]], key);
      if h.metadata[i].rel == key {
        vals := vals + [h.metadata[i].val];
      }
      i := i + 1;
    }
    assert h.metadata[..i] == h.metadata;
  }

  /** The first index whose item has href `href`, if any. */
  function HrefIndex(items: seq<Item>, href: string): (r: Option<nat>)
    ensures r.None? <==> !HasHref(items, href)
    ensures r.Some? ==> r.value < |items| && items[r.value].href == href
    ensures r.Some? ==> forall j :: 0 <= j < r.value ==> items[j].href != href
  {
    if items == [] then None
    else if items[0].href == href then Some(0)
    else match HrefIndex(items[1..], href)
      case None => None
      case Some(k) => Some(k + 1)
  }

  /** Appends `item` unless an item with the same href is already present,
      in which case the catalogue is left as it was and an error returned. */
  function AddItem(h: HyperCat, item: Item): (r: Result<HyperCat>)
    ensures r.Err? <==> HasHref(h.items, item.href)
    ensures r.Err? ==> r.error == DuplicateHref(item.href)
    ensures r.Ok? ==> r.value == h.(items := h.items + [item])
  {
    if HrefIndex(h.items, item.href).Some? then Err(DuplicateHref(item.href))
    else Ok(h.(items := h.items + [item]))
  }

  /** Puts `item` in place of the first item with the same href; fails, and
      changes nothing, when there is none. */
  function ReplaceItem(h: HyperCat, item: Item): (r: Result<HyperCat>)
    ensures r.Err? <==> !HasHref(h.items, item.href)
    ensures r.Err? ==> r.error == ItemNotFound(item.href)
    ensures r.Ok? ==> r.value.metadata == h.metadata && r.value.description == h.description
    ensures r.Ok? ==> exists k :: 0 <= k < |h.items| && h.items[k].href == item.href
                        && (forall j :: 0 <= j < k ==> h.items[j].href != item.href)
                        && r.value.items == h.items[k := item]
  {
    match HrefIndex(h.items, item.href)
    case None => Err(ItemNotFound(item.href))
    case Some(k) => Ok(h.(items := h.items[k := item]))
  }

  /** A successful `AddItem` keeps hrefs pairwise distinct. */
  lemma AddItemKeepsUnique(h: HyperCat, item: Item)
    requires UniqueHrefs(h.items)
    ensures AddItem(h, item).Ok? ==> UniqueHrefs(AddItem(h, item).value.items)
  {
  }

  /** A successful `ReplaceItem` keeps the href sequence itself, so it keeps
      hrefs pairwise distinct. */
  lemma ReplaceItemKeepsHrefs(h: HyperCat, item: Item)
    ensures ReplaceItem(h, item).Ok? ==> Hrefs(ReplaceItem(h, item).value.items) == Hrefs(h.items)
    ensures ReplaceItem(h, item).Ok? && UniqueHrefs(h.items) ==> UniqueHrefs(ReplaceItem(h, item).value.items)
  {
  }

  /** Adding a relation other than the description relation keeps the
      metadata free of description entries. */
  lemma AddRelKeepsNoDescription(h: HyperCat, rel: string, val: string)
    requires NoKey(h.metadata, DescriptionRel)
    ensures rel != DescriptionRel <==> NoKey(AddRel(h, rel, val).metadata, DescriptionRel)
  {
  }

  /** Replacing a relation never introduces a description entry: only
      entries whose key is already `rel` change, and they keep that key. */
  lemma ReplaceRelKeepsNoDescription(h: HyperCat, rel: string, val: string)
    requires NoKey(h.metadata, DescriptionRel)
    ensures NoKey(ReplaceRel(h, rel, val).metadata, DescriptionRel)
  {
  }

  /** On a fresh catalogue, two `AddRel`s with one key give both values in
      order, and a following `ReplaceRel` overwrites both. */
  lemma DuplicateRelsThenReplace(description: string, k: string, v1: string, v2: string, v3: string)
    ensures ValuesFor(AddRel(AddRel(NewHyperCat(description), k, v1), k, v2).metadata, k) == [v1, v2]
    ensures ValuesFor(ReplaceRel(AddRel(AddRel(NewHyperCat(description), k, v1), k, v2), k, v3).metadata, k) == [v3, v3]
  {
  }

  /** Adding the same href twice fails the second time, leaving one item;
      replacing an href that is absent fails and leaves the items alone. */
  lemma SameHrefTwice(h: HyperCat, a: Item, b: Item, z: Item)
    requires h.items == [] && a.href == b.href && z.href != a.href
    ensures AddItem(h, a).Ok?
    ensures AddItem(AddItem(h, a).value, b) == Err(DuplicateHref(b.href))
    ensures |AddItem(h, a).value.items| == 1
    ensures ReplaceItem(AddItem(h, a).value, z) == Err(ItemNotFound(z.href))
  {
  }
}

=== FILE: codec.dfy ===
/**
 The catalogue's wire codec. On the wire the description is an ordinary
 metadata entry keyed `DescriptionRel`; in memory it is a field of its own.
 Encoding puts it back at the end of the metadata, decoding lifts it out.
 The JSON text itself is not modelled: a wire document is the pair of lists
 that the JSON layer decodes into (`TempCat`), and `None` stands for text
 that layer rejects.
 */
module Codec {
  import opened Model

  /** The wire shape of a catalogue: its items and its full metadata list,
      description entry included. */
  datatype TempCat = TempCat(items: seq<Item>, metadata: seq<Rel>)

  /** What decoding into an existing catalogue leaves behind: the catalogue
      as updated, and the error reported, if any. */
  datatype Decoded = Decoded(cat: HyperCat, err: Option<Error>)

  /** The metadata as sent: the description, when non-empty, travels as a
      trailing `DescriptionRel` entry. */
  function Inject(metadata: seq<Rel>, description: string): seq<Rel>
  {
    if description != "" then metadata + [Rel(DescriptionRel, description)] else metadata
  }

  /** Encoding: items pass through, the description joins the metadata. */
  function Marshal(h: HyperCat): (t: TempCat)
    ensures t.items == h.items
    ensures h.description != "" ==> t.metadata == h.metadata + [Rel(DescriptionRel, h.description)]
    ensures h.description == "" ==> t.metadata == h.metadata
  {
    TempCat(h.items, Inject(h.metadata, h.description))
  }

  /** The entries of `m` that are not description entries. */
  function Strip(m: seq<Rel>): (r: seq<Rel>)
    ensures |r| <= |m|
    ensures NoKey(r, DescriptionRel)
    ensures forall j :: 0 <= j < |r| ==> r[j] in m
    ensures NoKey(m, DescriptionRel) ==> r == m
  {
    if m == [] then []
    else (if m[0].rel == DescriptionRel then [] else [m[0]]) + Strip(m[1..])
  }

  /** The index of the last description entry of `m`, if there is one:
      that entry is the one whose value wins. */
  function LastDescriptionIndex(m: seq<Rel>): (r: Option<nat>)
    ensures r.None? <==> NoKey(m, DescriptionRel)
    ensures r.Some? ==> r.value < |m| && m[r.value].rel == DescriptionRel
    ensures r.Some? ==> forall j :: r.value < j < |m| ==> m[j].rel != DescriptionRel
  {
    if m == [] then None
    else if m[|m| - 1].rel == DescriptionRel then Some(|m| - 1)
    else LastDescriptionIndex(m[..|m| - 1])
  }

  /** The description left after scanning `m` from `current`: the value of
      the last description entry, or `current` when there is none. */
  function DescriptionAfter(m: seq<Rel>, current: string): string
  {
    match LastDescriptionIndex(m)
    case Some(i) => m[i].val
    case None => current
  }

  /** One more entry at the end either overwrites the description, when it
      is a description entry, or leaves it as it was. */
  lemma DescriptionAfterSnoc(m: seq<Rel>, x: Rel, current: string)
    ensures DescriptionAfter(m + [x], current)
              == if x.rel == DescriptionRel then x.val else DescriptionAfter(m, current)
  {
  }

  /** Filtering description entries out distributes over concatenation, so
      `Strip` keeps the surviving entries in their original order. */
  lemma {:induction false} StripConcat(a: seq<Rel>, b: seq<Rel>)
    ensures Strip(a + b) == Strip(a) + Strip(b)
  {
    if a == [] {
      assert a + b == b;
    } else {
      assert (a + b)[1..] == a[1..] + b;
      StripConcat(a[1..], b);
    }
  }

  /** Decoding `json` into the existing catalogue `h`, as `UnmarshalJSON` does:
      the non-description entries are appended to `h`'s metadata, the last
      description entry (if any) overwrites the description, the items are
      never assigned, and the description is checked only afterwards, so the
      catalogue is updated even when the error is reported. */
  function Unmarshal(h: HyperCat, json: Option<TempCat>): (d: Decoded)
    ensures json.None? ==> d == Decoded(h, Some(Malformed))
    ensures json.Some? ==> d.cat.items == h.items
    ensures json.Some? ==> d.cat.metadata == h.metadata + Strip(json.value.metadata)
    ensures json.Some? && NoKey(json.value.metadata, DescriptionRel) ==> d.cat.description == h.description
    ensures json.Some? && !NoKey(json.value.metadata, DescriptionRel) ==>
              exists i :: 0 <= i < |json.value.metadata|
                && json.value.metadata[i] == Rel(DescriptionRel, d.cat.description)
                && forall j :: i < j < |json.value.metadata| ==> json.value.metadata[j].rel != DescriptionRel
    ensures json.Some? ==> (d.err.Some? <==> d.cat.description == "")
    ensures json.Some? && d.err.Some? ==> d.err.value == MissingDescription
  {
    match json
    case None => Decoded(h, Some(Malformed))
    case Some(t) =>
      var description := DescriptionAfter(t.metadata, h.description);
      var cat := HyperCat(h.items, h.metadata + Strip(t.metadata), description);
      Decoded(cat, if description == "" then Some(MissingDescription) else None)
  }

  /** Scanning one more entry of `m`: it joins the kept entries unless it is
      a description entry, in which case it sets the description. */
  lemma ScanStep(m: seq<Rel>, i: nat, current: string)
    requires i < |m|
    ensures Strip(m[..i + 1]) == Strip(m[..i]) + (if m[i].rel == DescriptionRel then [] else [m[i]])
    ensures DescriptionAfter(m[..i + 1], current)
              == if m[i].rel == DescriptionRel then m[i].val else DescriptionAfter(m[..i], current)
  {
    assert m[..i + 1] == m[..i] + [m[i]];
    StripConcat(m[..i], [m[i]]);
    DescriptionAfterSnoc(m[..i], m[i], current);
  }

  /** The loop of `UnmarshalJSON`, one metadata entry at a time; it computes
      exactly `Unmarshal`. */
  method UnmarshalInto(h: HyperCat, json: Option<TempCat>) returns (cat: HyperCat, err: Option<Error>)
    ensures Decoded(cat, err) == Unmarshal(h, json)
  {
    if json.None? {
      return h, Some(Malformed);
    }
    var m := json.value.metadata;
    var metadata := h.metadata;
    var description := h.description;
    var i := 0;
    while i < |m|
      invariant 0 <= i <= |m|
      invariant metadata == h.metadata + Strip(m[..i])
      invariant description == DescriptionAfter(m[..i], h.description)
    {
      var rel := m[i];
      ScanStep(m, i, h.description);
      if rel.rel == DescriptionRel {
        description := rel.val;
      } else {
        metadata := metadata + [rel];
      }
      i := i + 1;
    }
    assert m[..i] == m;
    cat := HyperCat(h.items, metadata, description);
    err := if description == "" then Some(MissingDescription) else None;
  }

  /** Parsing a document: decoding into an empty catalogue; on error no
      catalogue is returned. */
  function Parse(json: Option<TempCat>): (r: Result<HyperCat>)
    ensures json.None? ==> r == Err(Malformed)
    ensures json.Some? && NoKey(json.value.metadata, DescriptionRel) ==> r == Err(MissingDescription)
    ensures r.Ok? ==> r.value.items == []
    ensures r.Ok? ==> r.value.metadata == Strip(json.value.metadata)
    ensures r.Ok? ==> r.value.description != ""
    ensures json.Some? ==> (r.Ok? <==> DescriptionAfter(json.value.metadata, "") != "")
    ensures json.Some? && r.Err? ==> r.error == MissingDescription
    ensures r.Ok? ==> r.value.description == DescriptionAfter(json.value.metadata, "")
  {
    var d := Unmarshal(HyperCat([], [], ""), json);
    if d.err.Some? then Err(d.err.value) else Ok(d.cat)
  }

  /** Encoding then parsing gives back the metadata and the description of
      any catalogue whose description is set and whose metadata holds no
      description entry; the items do not come back. */
  lemma RoundTrip(h: HyperCat)
    requires h.description != ""
    requires NoKey(h.metadata, DescriptionRel)
    ensures Parse(Some(Marshal(h))) == Ok(HyperCat([], h.metadata, h.description))
  {
    StripConcat(h.metadata, [Rel(DescriptionRel, h.description)]);
    assert Strip([Rel(DescriptionRel, h.description)]) == [];
    DescriptionAfterSnoc(h.metadata, Rel(DescriptionRel, h.description), "");
    var t := Marshal(h);
    assert t.metadata == h.metadata + [Rel(DescriptionRel, h.description)];
    assert Strip(t.metadata) == h.metadata;
    assert Unmarshal(HyperCat([], [], ""), Some(t)).cat == HyperCat([], h.metadata, h.description);
  }

  /** The other direction: a document whose only description entry is the
      last one, and which lists no items, is re-encoded exactly. */
  lemma ParseThenMarshal(t: TempCat, m: seq<Rel>, description: string)
    requires t.items == []
    requires t.metadata == m + [Rel(DescriptionRel, description)]
    requires NoKey(m, DescriptionRel) && description != ""
    ensures Parse(Some(t)).Ok?
    ensures Marshal(Parse(Some(t)).value) == t
  {
    StripConcat(m, [Rel(DescriptionRel, description)]);
    assert Strip([Rel(DescriptionRel, description)]) == [];
    DescriptionAfterSnoc(m, Rel(DescriptionRel, description), "");
  }

  /** A catalogue with an empty description encodes to a document that does
      not parse. */
  lemma EmptyDescriptionNotParsed(h: HyperCat)
    requires h.description == ""
    requires NoKey(h.metadata, DescriptionRel)
    ensures Parse(Some(Marshal(h))) == Err(MissingDescription)
  {
  }

  /** The last description entry wins even when its value is empty: such a
      document does not parse, whatever description came before. */
  lemma EmptyLastDescriptionFails(m: seq<Rel>, v: string)
    ensures Parse(Some(TempCat([], m + [Rel(DescriptionRel, v), Rel(DescriptionRel, "")]))) == Err(MissingDescription)
  {
  }

  /** As written, parsing an encoded catalogue that has items loses them. */
  lemma ParseDropsItems(h: HyperCat)
    requires h.description != "" && NoKey(h.metadata, DescriptionRel)
    requires h.items != []
    ensures Parse(Some(Marshal(h))).Ok?
    ensures Parse(Some(Marshal(h))).value != h
  {
  }

  /** Decoding as evidently intended: as `Unmarshal`, but the decoded items
      are assigned to the catalogue. */
  function UnmarshalWithItems(h: HyperCat, json: Option<TempCat>): (d: Decoded)
    ensures json.None? ==> d == Decoded(h, Some(Malformed))
    ensures json.Some? ==> d.cat.items == json.value.items
    ensures d.cat.metadata == Unmarshal(h, json).cat.metadata
    ensures d.cat.description == Unmarshal(h, json).cat.description
    ensures d.err == Unmarshal(h, json).err
  {
    var d := Unmarshal(h, json);
    match json
    case None => d
    case Some(t) => d.(cat := d.cat.(items := t.items))
  }

  /** Parsing with the corrected decoder. */
  function ParseWithItems(json: Option<TempCat>): (r: Result<HyperCat>)
    ensures r.Err? <==> Parse(json).Err?
    ensures r.Ok? ==> r.value.items == json.value.items
    ensures r.Ok? ==> r.value.metadata == Parse(json).value.metadata
    ensures r.Ok? ==> r.value.description == Parse(json).value.description
  {
    var d := UnmarshalWithItems(HyperCat([], [], ""), json);
    if d.err.Some? then Err(d.err.value) else Ok(d.cat)
  }

  /** With the corrected decoder the whole catalogue round-trips. */
  lemma RoundTripWithItems(h: HyperCat)
    requires h.description != ""
    requires NoKey(h.metadata, DescriptionRel)
    ensures ParseWithItems(Some(Marshal(h))) == Ok(h)
  {
    RoundTrip(h);
  }
}

=== FILE: metadata.dfy ===
/**
 The ordered, duplicate-tolerant relation list shared by the catalogue and its
 items, and the scans the catalogue performs over it.
 */
module Metadata {
  import opened Model

  /** Every entry whose key is `key` gets value `val`; every other entry, and
      the order, are kept. */
  function ReplaceAll(m: seq<Rel>, key: string, val: string): (r: seq<Rel>)
    ensures |r| == |m|
    ensures forall i :: 0 <= i < |m| && m[i].rel == key ==> r[i] == Rel(key, val)
    ensures forall i :: 0 <= i < |m| && m[i].rel != key ==> r[i] == m[i]
  {
    if m == [] then []
    else [if m[0].rel == key then Rel(key, val) else m[0]] + ReplaceAll(m[1..], key, val)
  }

  /** The key of every entry, in list order, duplicates included. */
  function Keys(m: seq<Rel>): (r: seq<string>)
    ensures |r| == |m|
    ensures forall i :: 0 <= i < |m| ==> r[i] == m[i].rel
  {
    if m == [] then [] else [m[0].rel] + Keys(m[1..])
  }

  /** The values of the entries whose key is `key`, in list order. */
  function ValuesFor(m: seq<Rel>, key: string): (r: seq<string>)
    ensures |r| <= |m|
    ensures forall j :: 0 <= j < |r| ==> Rel(key, r[j]) in m
    ensures r == [] <==> NoKey(m, key)
  {
    if m == [] then []
    else (if m[0].rel == key then [m[0].val] else []) + ValuesFor(m[1..], key)
  }

  /** `n` copies of `v`. */
  function Repeat(v: string, n: nat): seq<string>
  {
    seq(n, _ => v)
  }

  /** Looking up values distributes over concatenation: together with the
      one-entry case this pins `ValuesFor` down as "filter, then project". */
  lemma {:induction false} ValuesForConcat(a: seq<Rel>, b: seq<Rel>, key: string)
    ensures ValuesFor(a + b, key) == ValuesFor(a, key) + ValuesFor(b, key)
  {
    if a == [] {
      assert a + b == b;
    } else {
      assert (a + b)[1..] == a[1..] + b;
      ValuesForConcat(a[1..], b, key);
    }
  }

  /** Appending `(key, val)` adds `val` at the end of the values of `key` and
      leaves the values of every other key as they were. */
  lemma AppendValues(m: seq<Rel>, key: string, val: string, other: string)
    ensures ValuesFor(m + [Rel(key, val)], key) == ValuesFor(m, key) + [val]
    ensures other != key ==> ValuesFor(m + [Rel(key, val)], other) == ValuesFor(m, other)
  {
    ValuesForConcat(m, [Rel(key, val)], key);
    ValuesForConcat(m, [Rel(key, val)], other);
  }

  /** Replacing twice with the same pair is the same as replacing once. */
  lemma ReplaceAllIdempotent(m: seq<Rel>, key: string, val: string)
    ensures ReplaceAll(ReplaceAll(m, key, val), key, val) == ReplaceAll(m, key, val)
  {
  }

  /** Replacing a key that does not occur changes nothing. */
  lemma ReplaceAllNoMatch(m: seq<Rel>, key: string, val: string)
    requires NoKey(m, key)
    ensures ReplaceAll(m, key, val) == m
  {
  }

  /** Replacing never changes which keys the list holds, nor their order. */
  lemma ReplaceAllKeys(m: seq<Rel>, key: string, val: string)
    ensures Keys(ReplaceAll(m, key, val)) == Keys(m)
  {
  }

  /** After replacing, `key` has as many values as before, all equal to
      `val`. */
  lemma {:induction false} ReplaceAllValues(m: seq<Rel>, key: string, val: string)
    ensures ValuesFor(ReplaceAll(m, key, val), key) == Repeat(val, |ValuesFor(m, key)|)
  {
    if m != [] {
      var r := ReplaceAll(m, key, val);
      assert r[1..] == ReplaceAll(m[1..], key, val);
      ReplaceAllValues(m[1..], key, val);
    }
  }

  /** Replacing one key leaves the values of every other key as they were. */
  lemma {:induction false} ReplaceAllOtherValues(m: seq<Rel>, key: string, val: string, other: string)
    requires other != key
    ensures ValuesFor(ReplaceAll(m, key, val), other) == ValuesFor(m, other)
  {
    if m != [] {
      var r := ReplaceAll(m, key, val);
      assert r[1..] == ReplaceAll(m[1..], key, val);
      ReplaceAllOtherValues(m[1..], key, val, other);
    }
  }
}

=== FILE: model.dfy ===
/**
 The HyperCat 2.0 catalogue data model: relation pairs, items, the catalogue
 itself, and the error and result types its operations return.
 */
module Model {

  /** The relation key that marks a catalogue's description on the wire. */
  const DescriptionRel: string := "urn:X-hypercat:rels:hasDescription:en"

  /** One `(rel, val)` metadata pair. Keys may repeat within a list. */
  datatype Rel = Rel(rel: string, val: string)

  /** The parts of an item this model does not look into (its own metadata
      and description, handled by the item's codec). */
  datatype ItemBody = ItemBody(metadata: seq<Rel>, description: string)

  /** A catalogue member; the catalogue only ever compares items by `href`. */
  datatype Item = Item(href: string, body: ItemBody)

  /** The catalogue root: its items, its metadata without the description
      entry, and the description held in a field of its own. */
  datatype HyperCat = HyperCat(items: seq<Item>, metadata: seq<Rel>, description: string)

  datatype Error =
    | DuplicateHref(href: string)
    | ItemNotFound(href: string)
    | MissingDescription
    | Malformed

  datatype Option<+T> = None | Some(value: T)

  datatype Result<+T> = Ok(value: T) | Err(error: Error)

  /** The hrefs of `items`, in order. */
  function Hrefs(items: seq<Item>): seq<string>
  {
    seq(|items|, i requires 0 <= i < |items| => items[i].href)
  }

  /** No two items share an href: the catalogue's standing invariant. */
  predicate UniqueHrefs(items: seq<Item>)
  {
    forall i, j :: 0 <= i < j < |items| ==> items[i].href != items[j].href
  }

  /** Some item of `items` has the given href. */
  predicate HasHref(items: seq<Item>, href: string)
  {
    exists i :: 0 <= i < |items| && items[i].href == href
  }

  /** No entry of `m` has key `key`. */
  predicate NoKey(m: seq<Rel>, key: string)
  {
    forall i :: 0 <= i < |m| ==> m[i].rel != key
  }
}

=== FILE: scenarios.dfy ===
/**
 A whole catalogue built through the public operations, encoded and parsed
 back.
 */
module Scenarios {
  import opened Model
  import opened Catalogue
  import opened Codec

  const SupportsSearch: string := "urn:X-hypercat:rels:supportsSearch"
  /** A search-capability value, spelled with ASCII hyphens only. */
  const SearchVal: string := "urn:X-hypercat:search:simple"

  /** A catalogue described "Catalog Name", with one search relation and one
      item: parsing its encoding gives back the description and the relation,
      with no description entry among the queryable relations, but no item;
      the corrected decoder gives back the item too. */
  lemma EncodeThenParse(item: Item)
    requires item.href == "/resource1"
    ensures AddItem(AddRel(NewHyperCat("Catalog Name"), SupportsSearch, SearchVal), item).Ok?
    ensures var h := AddItem(AddRel(NewHyperCat("Catalog Name"), SupportsSearch, SearchVal), item).value;
            && Parse(Some(Marshal(h))) == Ok(HyperCat([], [Rel(SupportsSearch, SearchVal)], "Catalog Name"))
            && ParseWithItems(Some(Marshal(h))) == Ok(HyperCat([item], [Rel(SupportsSearch, SearchVal)], "Catalog Name"))
  {
    var h := AddItem(AddRel(NewHyperCat("Catalog Name"), SupportsSearch, SearchVal), item).value;
    assert h == HyperCat([item], [Rel(SupportsSearch, SearchVal)], "Catalog Name");
    assert SupportsSearch != DescriptionRel;
    RoundTrip(h);
    RoundTripWithItems(h);
  }

  /** `AddRel` accepts the description relation itself. On a catalogue with a
      description the added entry is lost on parsing, because the encoded
      description comes after it and wins; on a catalogue without one, the
      added value becomes the parsed description. */
  lemma AddedDescriptionRel(v: string)
    requires v != ""
    ensures Parse(Some(Marshal(AddRel(NewHyperCat("D"), DescriptionRel, v)))) == Ok(HyperCat([], [], "D"))
    ensures Parse(Some(Marshal(AddRel(NewHyperCat(""), DescriptionRel, v)))) == Ok(HyperCat([], [], v))
  {
    var a := [Rel(DescriptionRel, v)];
    DescriptionAfterSnoc(a, Rel(DescriptionRel, "D"), "");
    DescriptionAfterSnoc([], Rel(DescriptionRel, v), "");
    StripConcat(a, [Rel(DescriptionRel, "D")]);
    assert [] + a == a;
    assert Strip(a) == [];
  }

  /** Adding a non-description relation keeps a round-trippable catalogue
      round-trippable: the new entry comes back at the end of the metadata. */
  lemma RoundTripAfterAddRel(h: HyperCat, rel: string, val: string)
    requires h.description != "" && NoKey(h.metadata, DescriptionRel)
    requires rel != DescriptionRel
    ensures Parse(Some(Marshal(AddRel(h, rel, val)))) == Ok(HyperCat([], h.metadata + [Rel(rel, val)], h.description))
  {
    AddRelKeepsNoDescription(h, rel, val);
    RoundTrip(AddRel(h, rel, val));
  }

  /** Replacing a relation keeps a round-trippable catalogue round-trippable,
      and the replaced values come back. */
  lemma RoundTripAfterReplaceRel(h: HyperCat, rel: string, val: string)
    requires h.description != "" && NoKey(h.metadata, DescriptionRel)
    ensures Parse(Some(Marshal(ReplaceRel(h, rel, val)))) == Ok(HyperCat([], ReplaceRel(h, rel, val).metadata, h.description))
  {
    ReplaceRelKeepsNoDescription(h, rel, val);
    RoundTrip(ReplaceRel(h, rel, val));
  }
}
